=== FILE: README.md ===
# Gesture navigation settings: a verified model of the decision core

This project models the decision logic of two screens of the Android Settings app:

- **Gesture sensitivity screen** (`GestureNavigationSettingsFragment`). It has four seekbars: left inset, right inset, back-gesture height and dead zone. It also has a gesture-bar length selector and a full-screen gestures switch.
  - Each seekbar picks its start position from a stored setting. For the insets and the height this is the nearest entry of a scale array.
  - A live change previews on the back-gesture indicator.
  - A commit stores the value.
- **Navigation mode screen** (`SystemNavigationGestureSettings`). It maps the gestural, two-button and three-button keys to navigation-bar-mode overlays. It derives the current mode, builds the list of candidate modes and migrates legacy gestural overlays to inset-scale settings.

The platform is abstracted as one object, `Platform.SystemServices`. It holds:
- the Secure and System settings tables, whose values record whether they were written as a float or as an int;
- the overlay manager's per-package enabled flags. A package missing from the map has no overlay info.

`setEnabledExclusiveInCategory` is specified by `Platform.ExclusivelyEnabled`: it enables the package and disables the other installed members of its category. Remote failures are parameters, one per remote call.

Modules:
- `Platform`: settings, overlays and the services class.
- `JavaNumerics`: the `(int)` cast and `Float.MAX_VALUE`.
- `ClosestScale`: the nearest-index scan.
- `BackGestureIndicator`: the indicator as a log of the calls made on it.
- `GestureNavigation`: the sensitivity screen as a class whose fields are the screen's fields.
- `SystemNavigation`: the navigation mode screen, whose static methods become module-level methods over the services object.

Behaviour of the code that a reader might not expect:
- **Migration read failures.** A failing first read means no migration. A failing second read (the hidden-bar overlay) after a successful first read counts that overlay as absent, so the migration acts whenever the gestural overlay is installed and disabled (`SystemNavigation.SecondReadFailureTreatsFullscreenAsAbsent`). Because of this, a second run is guaranteed to change nothing only when its reads succeed (`SystemNavigation.MigrationIdempotent`). With a failing second read it can act where the first run did not (`SystemNavigation.SecondReadFailureExample`).
- **Edge commit.** An edge commit sets only its own edge's indicator width to 0. A height commit sets both widths to 0.
- **Bar length 0.** Index 0 makes two plain `setEnabled(false)` calls, long first and then medium. It does not use an exclusive enable.
- **Round trip.** Committing position i on an edge and reopening the screen does not always show i again (see Findings).

## Model

| member | source | states |
|---|---|---|
| `Platform.ExclusivelyEnabled` | src/com/android/settings/gestures/SystemNavigationGestureSettings.java:234-238 | assumed semantics of exclusive enable: the package ends up enabled and is the only enabled member of its category; other categories keep their state; an uninstalled package changes nothing |
| `Platform.WithEnabled` | src/com/android/settings/gestures/GestureNavigationSettingsFragment.java:243-245 | `setEnabled` changes only the named package's flag, and only if it is installed |
| `Platform.ExclusivelyEnabledIdempotent` | src/com/android/settings/gestures/SystemNavigationGestureSettings.java:234-238 | enabling the same package exclusively twice equals doing it once |
| `Platform.SystemServices.GetOverlayInfo` | src/com/android/settings/gestures/SystemNavigationGestureSettings.java:190-193 | `getOverlayInfo` either raises or answers with the package's enabled flag, null exactly when the package is not installed |
| `JavaNumerics.Trunc` | src/com/android/settings/gestures/GestureNavigationSettingsFragment.java:177-180 | the `(int)` cast rounds toward zero: the result is at most one unit nearer to zero than the argument |
| `ClosestScale.ClosestIndex` | src/com/android/settings/gestures/GestureNavigationSettingsFragment.java:188-199 | the scan's result is -1 when no entry is nearer than `Float.MAX_VALUE` (so also for an empty array); otherwise it is an index of least distance to the stored value, and the first of equally near ones |
| `ClosestScale.FindClosestIndex` | src/com/android/settings/gestures/GestureNavigationSettingsFragment.java:189-199 | the linear scan with `minDistance`/`minDistanceIndex` and the strict `<` yields exactly that argmin, first index on ties |
| `ClosestScale.ClosestIndexUnique` | src/com/android/settings/gestures/GestureNavigationSettingsFragment.java:188-199 | the argmin-with-first-tie specification determines the start position uniquely |
| `ClosestScale.ClosestIndexOfEntry` | src/com/android/settings/gestures/GestureNavigationSettingsFragment.java:193-198 | scanning for a value that is itself entry i, with no equal entry before it, finds i |
| `BackGestureIndicator.HeightPreview` | src/com/android/settings/gestures/GestureNavigationSettingsFragment.java:214-222 | after the height preview's five calls the view is attached and shows the new height scale, the remembered right width and the remembered left width |
| `BackGestureIndicator.AfterEvent` | src/com/android/settings/gestures/GestureNavigationSettingsFragment.java:207-222 | an indicator call changes only what it sets: a width call one edge, a height call the height scale, remove/add the attached state |
| `GestureNavigation.InitialProgressIsClosest` | src/com/android/settings/gestures/GestureNavigationSettingsFragment.java:168-201 | for every key except the bar length, the start position is the scan specification's pick (first nearest entry, or -1) over the scales field. The height's stored value is read as an int from the System table, the others as floats from the Secure table |
| `GestureNavigation.InitialProgressDefaults` | src/com/android/settings/gestures/GestureNavigationSettingsFragment.java:168-191 | with an empty scale array the start position stays -1; with no stored bar length the bar starts at the truncated default 1.0, i.e. 1 |
| `GestureNavigation.CommitThenReopenRoundTrip` | src/com/android/settings/gestures/GestureNavigationSettingsFragment.java:182-236 | when a seekbar's listeners index the scales its start position was scanned in, and no entry before position v equals entry v, committing position v and initialising again gives v (the height via its int setting, the edges via their float settings) |
| `GestureNavigation.BarLengthSelectionRoundTrip` | src/com/android/settings/gestures/GestureNavigationSettingsFragment.java:240-266 | with both the long and the medium length overlays installed, selecting 0, 1 or 2 without remote failure leaves the overlays showing that length with at most one length overlay enabled, and the stored float makes a re-initialised bar start at that position |
| `GestureNavigation.BarLengthSelectionFrame` | src/com/android/settings/gestures/GestureNavigationSettingsFragment.java:240-266 | the selector fails exactly when a call it makes fails (two calls for 0, one for 1 and 2, none otherwise); a failure is rethrown before the length is stored; an index other than 0, 1 or 2 leaves the overlays unchanged; the selector never touches the navigation-mode overlays or the System table |
| `GestureNavigation.SettingFor` | src/com/android/settings/gestures/GestureNavigationSettingsFragment.java:151-167 | only the dead-zone key names no setting; the left edge, and only it, names the left inset scale; the right edge, and only it, names the right inset scale; the height key, and only it, names the height setting; the bar-length key, and only it, names the bar-length setting |
| `GestureNavigation.SettingForInjective` | src/com/android/settings/gestures/GestureNavigationSettingsFragment.java:151-167 | no two of the four routed seekbars share a setting (the dead-zone seekbar is outside the switch) |
| `GestureNavigation.ScalesFor` | src/com/android/settings/gestures/GestureNavigationSettingsFragment.java:182-186 | corrected definition: the height scans and indexes the four height levels, where level i is the value i, so the `(int)` cast of a commit loses nothing; the edges use the inset scales |
| `GestureNavigation.BarLengthSelected` | src/com/android/settings/gestures/GestureNavigationSettingsFragment.java:240-266 | the selector either succeeds or reports a rethrown failure, succeeds whenever no call fails, and after success the stored bar length reads back as the selected index |
| `GestureNavigation.FullscreenToggled` | src/com/android/settings/gestures/GestureNavigationSettingsFragment.java:291-306 | the flag reads back as 1 or 0 for on or off, whatever happens to the overlay call; the Secure table, the rest of the System table, the set of installed overlays and the overlays outside the navigation-bar-mode category are untouched; a failed overlay call leaves the overlays as they were; otherwise the chosen gestural variant, if installed, is enabled and is the only enabled navigation-mode overlay |
| `GestureNavigation.FailedToggleThenRetry` | src/com/android/settings/gestures/GestureNavigationSettingsFragment.java:291-306 | retrying the full-screen switch after its overlay call failed has the same effect as a first attempt that succeeded |
| `SystemNavigation.GetCandidates` | src/com/android/settings/gestures/SystemNavigationGestureSettings.java:139-167 | the list holds exactly the known modes whose overlay package is available, each once, in the order gestural, 2-button, 3-button |
| `GestureNavigation.GestureNavigationSettingsFragment.OnCreatePreferences` | src/com/android/settings/gestures/GestureNavigationSettingsFragment.java:91-106 | initialises left, right, bar length, dead zone and height, in that order. Afterwards the shared scales field holds the height levels {0,1,2,3}, while the edges' start positions were scanned in the inset scales. Both current widths come from the stored inset scales. No setting is written and the indicator is not touched |
| `GestureNavigation.GestureNavigationSettingsFragment.InitSeekBarPreference` | src/com/android/settings/gestures/GestureNavigationSettingsFragment.java:144-201 | routes the key to its setting, sets both current widths from the stored inset scales, replaces the scales field by the height levels only for the height key, and sets the start position to `InitialProgress` |
| `GestureNavigation.GestureNavigationSettingsFragment.OnScaleSeekBarChange` | src/com/android/settings/gestures/GestureNavigationSettingsFragment.java:204-225 | an edge live change makes exactly one indicator call, which sets that edge's width to trunc(inset × scales[v]), and updates only that edge's current-width field. A height live change makes exactly these calls: set the height scale to (int)scales[v], remove the view, add it back, set the right width, then set the left width, taking both widths from the fields. No setting is written. An index outside the scales raises before any effect |
| `GestureNavigation.GestureNavigationSettingsFragment.OnScaleSeekBarChangeStop` | src/com/android/settings/gestures/GestureNavigationSettingsFragment.java:227-238 | a height commit makes exactly two indicator calls, setting the right and then the left width to 0, and stores (int)scale as an int in System. An edge commit makes one call, setting its own edge's width to 0, and stores the scale as a float in Secure. An index outside the scales raises before any effect |
| `GestureNavigation.GestureNavigationSettingsFragment.OnBarLengthChange` | src/com/android/settings/gestures/GestureNavigationSettingsFragment.java:240-267 | the overlay calls and the stored float are exactly those of `BarLengthSelected`, including a rethrown failure that stores nothing |
| `GestureNavigation.GestureNavigationSettingsFragment.InitDeadzoneSeekBarPreference` | src/com/android/settings/gestures/GestureNavigationSettingsFragment.java:271-277 | the dead-zone seekbar starts at the stored System int, 0 when absent |
| `GestureNavigation.GestureNavigationSettingsFragment.OnDeadZoneChange` | src/com/android/settings/gestures/GestureNavigationSettingsFragment.java:279-282 | a dead-zone live change is accepted and changes nothing |
| `GestureNavigation.GestureNavigationSettingsFragment.OnDeadZoneChangeStop` | src/com/android/settings/gestures/GestureNavigationSettingsFragment.java:284-288 | a dead-zone commit stores the position as an int in System and changes nothing else |
| `GestureNavigation.GestureNavigationSettingsFragment.OnFullscreenGestureChange` | src/com/android/settings/gestures/GestureNavigationSettingsFragment.java:291-306 | stores 1/0 as the full-screen flag, then enables the hidden-bar or the plain gestural overlay exclusively; an overlay failure is swallowed, leaving the flag written and the overlays as they were |
| `GestureNavigation.CommitLeftEdgeAfterCreate` | src/com/android/settings/gestures/GestureNavigationSettingsFragment.java:182-235 | opening the screen and committing position 1 on the left edge succeeds and stores the second height level as the left inset scale |
| `GestureNavigation.LeftEdgeProgressOnCreate` | src/com/android/settings/gestures/GestureNavigationSettingsFragment.java:91-106 | a newly created screen starts the left edge at the scan of the stored left scale over the inset scales, not over the height levels the field holds afterwards |
| `GestureNavigation.EdgeCommitAfterCreate` | src/com/android/settings/gestures/GestureNavigationSettingsFragment.java:182-235 | as written, for any inset scales starting 0.6, 0.75, 1.0 and a stored left scale of 0.6: the created screen starts the left edge at 0; a left-edge commit at position 1 then stores the height level 1.0 instead of the inset scale 0.75 at that position, and the reopened screen starts the left edge at 2 |
| `SystemNavigation.OverlayPackageFor` | src/com/android/settings/gestures/SystemNavigationGestureSettings.java:218-232 | every key selects a navigation-bar-mode overlay standing for that key (an unknown key for gestural), never a legacy one; the gestural key selects the hidden-bar package exactly when the full-screen flag is 1 |
| `SystemNavigation.OtherKeyIgnoresSettings` | src/com/android/settings/gestures/SystemNavigationGestureSettings.java:218-232 | an unrecognised key falls back to the plain gestural overlay whatever the settings hold, so it does not read the full-screen flag |
| `SystemNavigation.CurrentSystemNavigationMode` | src/com/android/settings/gestures/SystemNavigationGestureSettings.java:206-215 | the current mode is always one of the three known keys |
| `SystemNavigation.CurrentModePriority` | src/com/android/settings/gestures/SystemNavigationGestureSettings.java:207-215 | gestural exactly when gesture navigation is enabled; 2-button exactly when it is not but 2-button is; 3-button otherwise |
| `SystemNavigation.NoNavigationOverlayMeansThreeButton` | src/com/android/settings/gestures/SystemNavigationGestureSettings.java:212-214 | with no navigation overlay enabled the mode is three-button |
| `SystemNavigation.ModeRoundTrip` | src/com/android/settings/gestures/SystemNavigationGestureSettings.java:207-238 | setting a known mode whose overlay is installed and then deriving the current mode gives that mode back |
| `SystemNavigation.SetCurrentSystemNavigationMode` | src/com/android/settings/gestures/SystemNavigationGestureSettings.java:217-239 | exactly one exclusive enable of the key's overlay; a remote failure is rethrown and changes nothing; no setting is written |
| `SystemNavigation.SetDefaultKey` | src/com/android/settings/gestures/SystemNavigationGestureSettings.java:174-180 | choosing a radio button sets that mode, with the same effect and failure as `SetCurrentSystemNavigationMode` |
| `SystemNavigation.MigrateOverlaySensitivityToSettings` | src/com/android/settings/gestures/SystemNavigationGestureSettings.java:182-204 | acts only in gestural mode, reads both overlay infos and swallows read failures; on the legacy state it sets gestural mode, then writes 1.0 to both inset scales; a mode-change failure is rethrown before the writes |
| `SystemNavigation.ModeSet` | src/com/android/settings/gestures/SystemNavigationGestureSettings.java:217-239 | setting a mode reports a failure exactly when the exclusive enable fails, and then changes nothing; on success the overlay the key selects, if installed, ends up enabled and is the only enabled navigation-bar-mode overlay, and if it is not installed nothing changes; it never touches the settings tables, the set of installed overlays or the overlays outside the navigation-bar-mode category |
| `SystemNavigation.MigrationAction` | src/com/android/settings/gestures/SystemNavigationGestureSettings.java:198-202 | once the migration acts: a failing mode change is rethrown with nothing changed; otherwise the gestural key's overlay is enabled exclusively, both inset scales read back as 1.0, and every other setting is unchanged |
| `SystemNavigation.Migrated` | src/com/android/settings/gestures/SystemNavigationGestureSettings.java:182-204 | the migration never touches the System table, either succeeds or fails with nothing changed, and fails only when the mode change fails |
| `SystemNavigation.MigrationActsExactlyWhenNeeded` | src/com/android/settings/gestures/SystemNavigationGestureSettings.java:190-203 | with both reads succeeding, the migration acts exactly when the gestural overlay is installed and disabled and the hidden-bar overlay is absent or disabled, and otherwise changes nothing |
| `SystemNavigation.MigrationGuards` | src/com/android/settings/gestures/SystemNavigationGestureSettings.java:184-193 | outside gestural mode, or when the first read fails, the migration changes nothing and reports no error |
| `SystemNavigation.MigrationEstablishesGesturalMode` | src/com/android/settings/gestures/SystemNavigationGestureSettings.java:194-203 | when the gestural overlay is disabled, the hidden-bar overlay is absent or disabled, and the overlay the gestural key selects is installed, the migration leaves gestural navigation on, both inset scales at 1.0 and the System table unchanged |
| `SystemNavigation.MigrationIdempotent` | src/com/android/settings/gestures/SystemNavigationGestureSettings.java:194-203 | after one run without remote failures, a second run whose reads succeed changes nothing |
| `SystemNavigation.SecondReadFailureTreatsFullscreenAsAbsent` | src/com/android/settings/gestures/SystemNavigationGestureSettings.java:190-195 | when the second read fails after the first succeeded, the migration acts exactly when the gestural overlay is installed and disabled, whatever the hidden-bar overlay's state; otherwise it changes nothing |
| `SystemNavigation.SecondReadFailureExample` | src/com/android/settings/gestures/SystemNavigationGestureSettings.java:190-203 | with the gestural overlay disabled and the hidden-bar overlay enabled, a run whose reads succeed changes nothing, while a run whose second read fails switches to the plain gestural overlay and sets the left inset scale to 1.0 |
| `SystemNavigation.MigrationRetiresLegacyOverlay` | src/com/android/settings/gestures/SystemNavigationGestureSettings.java:194-203 | on a device whose only enabled navigation overlay is a legacy per-sensitivity one, and on which the plain gestural overlay and the overlay the gestural key selects are installed, a failure-free migration runs, disables the legacy overlay, enables the gestural key's overlay as the only one in its category, keeps gestural navigation on and sets both inset scales to 1.0 |
| `SystemNavigation.FullscreenToggleAgreesWithGesturalMode` | src/com/android/settings/gestures/GestureNavigationSettingsFragment.java:295-301 | for every store, after a successful full-screen switch, the gestural key maps to the overlay the switch enabled, and choosing gestural mode changes nothing |

## Left out

- Fragment lifecycle: `onCreate`, `onResume` (attaching the indicator), `onPause` (detaching it) and `onAttach`, plus the picker and dashboard plumbing. These are UI framework code. The migration that `onAttach` runs is modelled on its own.
- Listener registration, `setContinuousUpdates` and haptic feedback. Each registered listener is a method of the screen, called with the key its lambda captured.
- `initFullscreenGesturePreference` only registers a listener. It is modelled by `OnFullscreenGestureChange`.
- Resources: `getFloatArray` and the default inset dimension become parameters of `OnCreatePreferences`.
- IEEE float rounding. Values are reals. The `(int)` cast is truncation toward zero, without saturation for huge or non-finite values.
- `SystemNavigationPreferenceController` is not part of this model. `isGestureNavigationEnabled` and `is2ButtonNavigationEnabled` become parameters, and `isOverlayPackageAvailable` becomes the set `available`. Lemmas that tie the mode to overlay state use an assumed reading of those predicates (`GestureNavigationEnabledIn`, `TwoButtonNavigationEnabledIn`).
- Overlay categories live in the overlay packages, which are not part of this model. The four navigation-mode packages are assumed to share one category, and the long and medium bar overlays are assumed to share another.
- Internals of the overlay manager, the settings provider and `ServiceManager`. Users are reduced to the current user, so the `ForUser` variants equal the plain ones.
- `setIllustrationVideo`, `updateCandidates`, `bindPreferenceExtra`, search indexing, the help resource, the metrics category, the suggestion preferences and `Log`. These are UI or metadata. Candidates are keys only: titles and summaries are not modelled.
- `getDefaultKey` is `CurrentSystemNavigationMode`.
- For the height key, `initSeekBarPreference` first reads the height setting with `Secure.getFloat` and then overwrites the value with `System.getInt`. The method `InitSeekBarPreference` makes both reads. `InitScale`, the function that specifies the start position, uses only the `System.getInt` value, because the first value is overwritten before it is used.
- The deprecated per-sensitivity gestural overlays are not named in this source. The model represents all of them by one package, `GesturalLegacySensitivity`, in the navigation-bar-mode category. The assumed reading `GestureNavigationEnabledIn` counts it as gestural navigation.
- A rethrown `RemoteException` and an `ArrayIndexOutOfBoundsException` become `Outcome` values. The caller's handling of them is not modelled.
- Setting names and preference keys are enums, so the interned-string `==` comparisons become equality on enum values.

## Findings

| source | as written | input that shows it | evidently intended | confidence | as-written member | corrected member |
|---|---|---|---|---|---|---|
| src/com/android/settings/gestures/GestureNavigationSettingsFragment.java:105,182-183,206,228 | initialising the height seekbar, which runs last, puts the height levels {0,1,2,3} into the shared `mBackGestureInsetScales`; the left and right edge listeners read that field when they fire | inset scales [0.6, 0.75, 1.0, 1.33, 1.66] and a stored left scale of 0.6 (start position 0): committing the left edge at 1 stores 1.0 and the reopened screen starts it at 2; at 0 the scale stored is 0.0; at 4 the listener indexes past the four levels | each seekbar's listeners index the scale array its start position was scanned in (inset scales for the edges, height levels for the height), so a commit followed by reopening shows the committed position | not executed; high | `GestureNavigation.EdgeCommitAfterCreate` | `GestureNavigation.CommitThenReopenRoundTrip` |

The screen class keeps the code's single shared scales field, so it reproduces the behaviour as written. The corrected definition is `GestureNavigation.ScalesFor`, and the round trip is proved about it.

=== FILE: back_gesture_indicator.dfy ===
/** The back-gesture preview indicator, seen only through the calls the settings screen makes
    on it and on the window manager. Its state is the log of those calls; each observable
    (edge widths, height scale, attached) is the effect of the last call that sets it. */
module BackGestureIndicator {

  datatype IndicatorEvent =
    | WidthSet(width: int, isLeftEdge: bool)  // setIndicatorWidth(width, isLeftEdge)
    | HeightScaleSet(scale: int)              // setIndicatorHeightScale(scale)
    | Removed                                 // WindowManager.removeView
    | Added                                   // WindowManager.addView

  type IndicatorLog = seq<IndicatorEvent>

  /** The width last set on one edge; 0 before any call. */
  function EdgeWidth(log: IndicatorLog, isLeftEdge: bool): int
  {
    if log == [] then 0
    else match log[|log| - 1]
      case WidthSet(w, left) => if left == isLeftEdge then w else EdgeWidth(log[..|log| - 1], isLeftEdge)
      case _ => EdgeWidth(log[..|log| - 1], isLeftEdge)
  }

  /** The height scale last set; 0 before any call. */
  function HeightScale(log: IndicatorLog): int
  {
    if log == [] then 0
    else match log[|log| - 1]
      case HeightScaleSet(s) => s
      case _ => HeightScale(log[..|log| - 1])
  }

  /** Whether the view is attached to the window: the last add or remove decides. */
  predicate Attached(log: IndicatorLog)
  {
    if log == [] then false
    else match log[|log| - 1]
      case Added => true
      case Removed => false
      case _ => Attached(log[..|log| - 1])
  }

  /** What one more call changes, and what it leaves as it was. */
  lemma {:induction false} AfterEvent(log: IndicatorLog, e: IndicatorEvent)
    ensures EdgeWidth(log + [e], true) == if e.WidthSet? && e.isLeftEdge then e.width else EdgeWidth(log, true)
    ensures EdgeWidth(log + [e], false) == if e.WidthSet? && !e.isLeftEdge then e.width else EdgeWidth(log, false)
    ensures HeightScale(log + [e]) == if e.HeightScaleSet? then e.scale else HeightScale(log)
    ensures Attached(log + [e]) == if e.Added? then true else if e.Removed? then false else Attached(log)
  {
    assert (log + [e])[..|log|] == log;
  }

  /** The height preview: set the height scale, remove and re-add the view, then set the
      right and the left width again. Afterwards the view is attached and shows exactly
      that height scale and those widths. */
  lemma {:induction false} HeightPreview(log: IndicatorLog, scale: int, rightWidth: int, leftWidth: int)
    ensures var after := log + [HeightScaleSet(scale), Removed, Added, WidthSet(rightWidth, false), WidthSet(leftWidth, true)];
      && HeightScale(after) == scale
      && Attached(after)
      && EdgeWidth(after, false) == rightWidth
      && EdgeWidth(after, true) == leftWidth
  {
    var l1 := log + [HeightScaleSet(scale)];
    var l2 := l1 + [Removed];
    var l3 := l2 + [Added];
    var l4 := l3 + [WidthSet(rightWidth, false)];
    var l5 := l4 + [WidthSet(leftWidth, true)];
    AfterEvent(log, HeightScaleSet(scale));
    AfterEvent(l1, Removed);
    AfterEvent(l2, Added);
    AfterEvent(l3, WidthSet(rightWidth, false));
    AfterEvent(l4, WidthSet(leftWidth, true));
    assert l5 == log + [HeightScaleSet(scale), Removed, Added, WidthSet(rightWidth, false), WidthSet(leftWidth, true)];
  }
}

=== FILE: closest_scale.dfy ===
/** Choosing a seekbar's start position: the index of the scale entry nearest to a stored
    value, found by a linear scan that keeps the first index of least distance. */
module ClosestScale {
  import opened JavaNumerics

  function Distance(a: real, b: real): real
  {
    Abs(a - b)
  }

  /** `r` is the position the scan must pick: -1 when no entry is nearer than FLOAT_MAX
      (in particular for an empty array); otherwise an index of least distance, and the
      first one among equally near entries. */
  predicate IsClosestIndex(scales: seq<real>, target: real, r: int)
  {
    if forall i | 0 <= i < |scales| :: Distance(scales[i], target) >= FLOAT_MAX then
      r == -1
    else
      && 0 <= r < |scales|
      && (forall j | 0 <= j < |scales| :: Distance(scales[r], target) <= Distance(scales[j], target))
      && (forall j | 0 <= j < r :: Distance(scales[r], target) < Distance(scales[j], target))
  }

  /** The specification determines the position uniquely. */
  lemma ClosestIndexUnique(scales: seq<real>, target: real, r1: int, r2: int)
    requires IsClosestIndex(scales, target, r1) && IsClosestIndex(scales, target, r2)
    ensures r1 == r2
  {
  }

  /** The scan's result on a prefix, extended by one more step. */
  function ClosestIndex(scales: seq<real>, target: real): (r: int)
    ensures IsClosestIndex(scales, target, r)
    decreases |scales|
  {
    if |scales| == 0 then -1
    else
      var n := |scales| - 1;
      var prev := ClosestIndex(scales[..n], target);
      assert forall j | 0 <= j < n :: scales[..n][j] == scales[j];
      var best := if prev == -1 then FLOAT_MAX else Distance(scales[prev], target);
      if Distance(scales[n], target) < best then n else prev
  }

  /** The scan itself: `minDistance` starts at FLOAT_MAX and `minDistanceIndex` at -1, and an
      entry replaces the current best only when it is strictly nearer. */
  method FindClosestIndex(scales: seq<real>, target: real) returns (minDistanceIndex: int)
    ensures IsClosestIndex(scales, target, minDistanceIndex)
    ensures minDistanceIndex == ClosestIndex(scales, target)
  {
    var minDistance := FLOAT_MAX;
    minDistanceIndex := -1;
    var i := 0;
    while i < |scales|
      invariant 0 <= i <= |scales|
      invariant minDistanceIndex == ClosestIndex(scales[..i], target)
      invariant -1 <= minDistanceIndex < i
      invariant minDistance == if minDistanceIndex == -1 then FLOAT_MAX else Distance(scales[minDistanceIndex], target)
    {
      var d := Distance(scales[i], target);
      if d < minDistance {
        minDistance := d;
        minDistanceIndex := i;
      }
      assert scales[..i + 1][..i] == scales[..i];
      i := i + 1;
    }
    assert scales[..i] == scales;
  }

  /** Reading back a stored entry finds that entry again, provided no earlier entry has the
      same value. */
  lemma {:induction false} ClosestIndexOfEntry(scales: seq<real>, i: int)
    requires 0 <= i < |scales|
    requires forall j | 0 <= j < i :: scales[j] != scales[i]
    ensures ClosestIndex(scales, scales[i]) == i
  {
    var r := ClosestIndex(scales, scales[i]);
    assert Distance(scales[i], scales[i]) == 0.0;
    assert Distance(scales[r], scales[i]) == 0.0;
  }
}

=== FILE: gesture_navigation.dfy ===
/** The gesture-navigation sensitivity screen: four seekbars (left and right back-gesture
    inset, back-gesture height, dead zone), the gesture-bar length selector and the
    full-screen gestures switch. Each seekbar takes its start position from a stored
    setting, previews a live change on the back-gesture indicator, and stores the value
    when the user lets go. */
module GestureNavigation {
  import opened Platform
  import opened JavaNumerics
  import opened ClosestScale
  import opened BackGestureIndicator

  /** The screen's seekbar preferences. */
  datatype SeekBarKey = LeftEdge | RightEdge | DeadZone | BarLength | BackHeight

  /** The seekbars whose listeners index the scales field (left, right and height). */
  predicate IsScaleKey(key: SeekBarKey)
  {
    key == LeftEdge || key == RightEdge || key == BackHeight
  }

  /** The setting a seekbar reads and writes; the dead-zone key takes the switch's default
      branch, which names no setting. */
  function SettingFor(key: SeekBarKey): (r: Option<SettingKey>)
    ensures r.None? <==> key == DeadZone
    ensures r == Some(BackGestureInsetScaleLeft) <==> key == LeftEdge
    ensures r == Some(BackGestureInsetScaleRight) <==> key == RightEdge
    ensures r == Some(BackGestureHeight) <==> key == BackHeight
    ensures r == Some(GestureNavbarLength) <==> key == BarLength
  {
    match key
    case LeftEdge => Some(BackGestureInsetScaleLeft)
    case RightEdge => Some(BackGestureInsetScaleRight)
    case BarLength => Some(GestureNavbarLength)
    case BackHeight => Some(BackGestureHeight)
    case DeadZone => None
  }

  /** No two seekbars share a setting. */
  lemma SettingForInjective(a: SeekBarKey, b: SeekBarKey)
    requires SettingFor(a).Some? && SettingFor(a) == SettingFor(b)
    ensures a == b
  {
  }

  /** The indicator width for a scale: the inset in pixels times the scale, cast to int. */
  function IndicatorWidth(defaultInset: real, scale: real): int
  {
    Trunc(defaultInset * scale)
  }

  /** The fixed height levels. */
  const HeightScales: seq<real> := [0.0, 1.0, 2.0, 3.0]

  /** The stored value a seekbar starts from: a float from the Secure table (default 1.0),
      except for the height, which is an int from the System table (default 0); 0 when the
      key names no setting. */
  function InitScale(key: SeekBarKey, s: Store): real
  {
    if key == BackHeight then ReadInt(s.system, BackGestureHeight, 0) as real
    else match SettingFor(key)
      case None => 0.0
      case Some(k) => ReadFloat(s.secure, k, 1.0)
  }

  /** A seekbar's start position, given the scales field as it stands after the height
      overwrite: the stored value truncated for the bar length, otherwise the nearest scale. */
  function InitialProgress(key: SeekBarKey, scales: seq<real>, s: Store): int
  {
    if key == BarLength then Trunc(InitScale(key, s)) else ClosestIndex(scales, InitScale(key, s))
  }

  /** Every scale seekbar starts at the position the scan specification picks for its stored
      value: the first nearest entry, or -1 when none is nearer than FLOAT_MAX. */
  lemma InitialProgressIsClosest(key: SeekBarKey, scales: seq<real>, s: Store)
    requires key != BarLength
    ensures IsClosestIndex(scales, InitScale(key, s), InitialProgress(key, scales, s))
  {
  }

  /** With no scales the start position stays -1; the bar length, never stored, starts at 1. */
  lemma InitialProgressDefaults(key: SeekBarKey, s: Store)
    ensures key != BarLength ==> InitialProgress(key, [], s) == -1
    ensures GestureNavbarLength !in s.secure ==> InitialProgress(BarLength, [], s) == 1
  {
  }

  /** What committing `scale` on a scale seekbar stores: the height as an int in the System
      table, an edge inset as a float in the Secure table. */
  function CommitWrite(s: Store, key: SeekBarKey, scale: real): Store
    requires IsScaleKey(key)
  {
    if key == BackHeight then s.(system := s.system[BackGestureHeight := IntText(Trunc(scale))])
    else s.(secure := s.secure[SettingFor(key).value := FloatText(scale)])
  }

  /** The scales each seekbar's start position is scanned in: the inset scales for the
      edges, the height levels for the height. */
  function ScalesFor(key: SeekBarKey, insetScales: seq<real>): (r: seq<real>)
    ensures key == BackHeight ==> |r| == 4 && forall i | 0 <= i < |r| :: r[i] == i as real
    ensures key != BackHeight ==> r == insetScales
  {
    if key == BackHeight then HeightScales else insetScales
  }

  /** When a seekbar's listeners index the same scales its start position is scanned in,
      committing position `v` and reopening the screen shows `v` again (for scales without
      an earlier duplicate of the committed entry). */
  lemma {:induction false} CommitThenReopenRoundTrip(key: SeekBarKey, insetScales: seq<real>, v: int, s: Store)
    requires IsScaleKey(key)
    requires 0 <= v < |ScalesFor(key, insetScales)|
    requires forall j | 0 <= j < v :: ScalesFor(key, insetScales)[j] != ScalesFor(key, insetScales)[v]
    ensures InitialProgress(key, ScalesFor(key, insetScales), CommitWrite(s, key, ScalesFor(key, insetScales)[v])) == v
  {
    var scales := ScalesFor(key, insetScales);
    var t := CommitWrite(s, key, scales[v]);
    assert InitScale(key, t) == scales[v] by {
      if key == BackHeight {
        assert scales[v] == v as real;
        TruncOfInt(v);
      }
    }
    ClosestIndexOfEntry(scales, v);
  }

  /** Which bar length the overlay state shows: 2 long, 1 medium, 0 default. */
  function SelectedBarLength(o: OverlayTable): int
  {
    if IsEnabled(o, GesturalLong) then 2 else if IsEnabled(o, GesturalMedium) then 1 else 0
  }

  /** Storing the selected bar length, as a float, after the overlay calls succeeded. */
  function StoreBarLength(s: Store, v: int): Effect
  {
    Effect(s.(secure := s.secure[GestureNavbarLength := FloatText(v as real)]), Done)
  }

  /** The bar-length selector: 0 disables the long then the medium overlay, 1 enables medium
      and 2 long exclusively, anything else makes no overlay call; the index is then stored.
      A failing overlay call is rethrown, so nothing after it happens. */
  function BarLengthSelected(s: Store, v: int, firstCallFails: bool, secondCallFails: bool): (e: Effect)
    ensures e.outcome == Done ==> ReadFloat(e.store.secure, GestureNavbarLength, 0.0) == v as real
    ensures e.outcome == Done || e.outcome == RemoteError
    ensures !firstCallFails && !secondCallFails ==> e.outcome == Done
  {
    if v == 0 then
      if firstCallFails then Effect(s, RemoteError)
      else
        var longOff := s.(overlays := WithEnabled(s.overlays, GesturalLong, false));
        if secondCallFails then Effect(longOff, RemoteError)
        else StoreBarLength(longOff.(overlays := WithEnabled(longOff.overlays, GesturalMedium, false)), v)
    else if v == 1 || v == 2 then
      if firstCallFails then Effect(s, RemoteError)
      else StoreBarLength(s.(overlays := ExclusivelyEnabled(s.overlays, if v == 1 then GesturalMedium else GesturalLong)), v)
    else
      StoreBarLength(s, v)
  }

  /** With both bar overlays installed and no remote failure, selecting 0, 1 or 2 leaves the
      overlays showing that length, at most one of them enabled, and a reopened screen
      starting at that position. */
  lemma BarLengthSelectionRoundTrip(s: Store, v: int, scales: seq<real>)
    requires 0 <= v <= 2
    requires GesturalLong in s.overlays && GesturalMedium in s.overlays
    ensures BarLengthSelected(s, v, false, false).outcome == Done
    ensures SelectedBarLength(BarLengthSelected(s, v, false, false).store.overlays) == v
    ensures AtMostOneEnabled(BarLengthSelected(s, v, false, false).store.overlays, NavigationBarLength)
    ensures InitialProgress(BarLength, scales, BarLengthSelected(s, v, false, false).store) == v
  {
    var o := BarLengthSelected(s, v, false, false).store.overlays;
    TruncOfInt(v);
    if v == 0 {
      assert !IsEnabled(o, GesturalLong) && !IsEnabled(o, GesturalMedium);
    } else if v == 1 {
      assert IsEnabled(o, GesturalMedium) && !IsEnabled(o, GesturalLong);
    }
  }

  /** The selector never touches the navigation-mode overlays or the System table; a
      rethrown failure stores nothing, and only a call that was made can fail. */
  lemma BarLengthSelectionFrame(s: Store, v: int, firstCallFails: bool, secondCallFails: bool)
    ensures var e := BarLengthSelected(s, v, firstCallFails, secondCallFails);
      && e.store.system == s.system
      && e.store.overlays.Keys == s.overlays.Keys
      && (forall p | p in s.overlays && CategoryOf(p) == NavigationBarMode :: e.store.overlays[p] == s.overlays[p])
      && (e.outcome == RemoteError <==> (v == 0 && (firstCallFails || secondCallFails)) || ((v == 1 || v == 2) && firstCallFails))
      && (e.outcome == RemoteError ==> e.store.secure == s.secure)
      && (e.outcome == Done ==> e.store.secure == s.secure[GestureNavbarLength := FloatText(v as real)])
      && (!(0 <= v <= 2) ==> e.store.overlays == s.overlays)
  {
  }

  /** The full-screen switch: store 1 or 0 first, then enable the hidden-bar or the plain
      gestural overlay exclusively; a failing overlay call is logged and swallowed, so the
      stored flag stays as written. */
  function FullscreenToggled(s: Store, isChecked: bool, overlayCallFails: bool): (t: Store)
    ensures ReadInt(t.system, FullscreenGestures, 0) == (if isChecked then 1 else 0)
    ensures t.secure == s.secure
    ensures overlayCallFails ==> t.overlays == s.overlays
    ensures forall k | k != FullscreenGestures :: (k in t.system <==> k in s.system) && (k in s.system ==> t.system[k] == s.system[k])
    ensures t.overlays.Keys == s.overlays.Keys
    ensures forall p | p in s.overlays && CategoryOf(p) != NavigationBarMode :: t.overlays[p] == s.overlays[p]
    ensures var pkg := if isChecked then NavBarModeGesturalHidden else NavBarModeGestural;
      !overlayCallFails && pkg in s.overlays ==> IsEnabled(t.overlays, pkg) && AtMostOneEnabled(t.overlays, NavigationBarMode)
  {
    var written := s.(system := s.system[FullscreenGestures := IntText(if isChecked then 1 else 0)]);
    if overlayCallFails then written
    else written.(overlays := ExclusivelyEnabled(s.overlays, if isChecked then NavBarModeGesturalHidden else NavBarModeGestural))
  }

  /** Retrying the switch after its overlay call failed has the effect of a first attempt
      that succeeded: the flag written by the failed attempt is simply written again. */
  lemma FailedToggleThenRetry(s: Store, isChecked: bool)
    ensures FullscreenToggled(FullscreenToggled(s, isChecked, true), isChecked, false) == FullscreenToggled(s, isChecked, false)
  {
    var x := IntText(if isChecked then 1 else 0);
    assert s.system[FullscreenGestures := x][FullscreenGestures := x] == s.system[FullscreenGestures := x];
  }

  /** The screen: its fields, the back-gesture indicator it drives, and the preferences'
      listeners as methods. */
  class GestureNavigationSettingsFragment {
    const services: SystemServices
    var defaultBackGestureInset: real
    /** Shared by every scale seekbar's listeners, which read it when they fire. */
    var backGestureInsetScales: seq<real>
    var currentRightWidth: int
    var currentLeftWidth: int
    /** The start position each seekbar was given. */
    var progress: map<SeekBarKey, int>
    var indicator: IndicatorLog

    constructor (services: SystemServices)
      ensures this.services == services
      ensures defaultBackGestureInset == 0.0 && backGestureInsetScales == []
      ensures currentRightWidth == 0 && currentLeftWidth == 0
      ensures progress == map[] && indicator == []
    {
      this.services := services;
      defaultBackGestureInset := 0.0;
      backGestureInsetScales := [];
      currentRightWidth := 0;
      currentLeftWidth := 0;
      progress := map[];
      indicator := [];
    }

    /** Loads the inset and the inset scales, then initialises the seekbars in the screen's
        order; the height comes last and leaves the height levels in the shared scales field. */
    method OnCreatePreferences(defaultInset: real, insetScales: seq<real>)
      modifies this`defaultBackGestureInset, this`backGestureInsetScales, this`progress,
               this`currentRightWidth, this`currentLeftWidth
      ensures defaultBackGestureInset == defaultInset
      ensures backGestureInsetScales == HeightScales
      ensures progress == old(progress)
        [LeftEdge := InitialProgress(LeftEdge, insetScales, services.State())]
        [RightEdge := InitialProgress(RightEdge, insetScales, services.State())]
        [BarLength := InitialProgress(BarLength, insetScales, services.State())]
        [DeadZone := ReadInt(services.system, EdgeGestureYDeadZone, 0)]
        [BackHeight := InitialProgress(BackHeight, HeightScales, services.State())]
      ensures currentRightWidth == IndicatorWidth(defaultInset, ReadFloat(services.secure, BackGestureInsetScaleRight, 1.0))
      ensures currentLeftWidth == IndicatorWidth(defaultInset, ReadFloat(services.secure, BackGestureInsetScaleLeft, 1.0))
    {
      defaultBackGestureInset := defaultInset;
      backGestureInsetScales := insetScales;
      InitSeekBarPreference(LeftEdge);
      InitSeekBarPreference(RightEdge);
      // The full-screen switch only gets its listener, OnFullscreenGestureChange.
      InitSeekBarPreference(BarLength);
      InitDeadzoneSeekBarPreference();
      InitSeekBarPreference(BackHeight);
    }

    /** Routes the key to its setting, refreshes both current widths from the stored inset
        scales, switches the shared scales field to the height levels for the height key,
        and sets the start position. */
    method InitSeekBarPreference(key: SeekBarKey)
      modifies this`progress, this`backGestureInsetScales, this`currentRightWidth, this`currentLeftWidth
      ensures backGestureInsetScales == if key == BackHeight then HeightScales else old(backGestureInsetScales)
      ensures progress == old(progress)[key := InitialProgress(key, backGestureInsetScales, services.State())]
      ensures currentRightWidth == IndicatorWidth(defaultBackGestureInset, ReadFloat(services.secure, BackGestureInsetScaleRight, 1.0))
      ensures currentLeftWidth == IndicatorWidth(defaultBackGestureInset, ReadFloat(services.secure, BackGestureInsetScaleLeft, 1.0))
    {
      var settingsKey := SettingFor(key);
      var initScale := 0.0;
      if settingsKey.Some? {
        initScale := services.GetFloat(Secure, settingsKey.value, 1.0);
      }

      var currentWidthScale := services.GetFloat(Secure, BackGestureInsetScaleRight, 1.0);
      currentRightWidth := IndicatorWidth(defaultBackGestureInset, currentWidthScale);
      assert currentWidthScale == ReadFloat(services.secure, BackGestureInsetScaleRight, 1.0);
      currentWidthScale := services.GetFloat(Secure, BackGestureInsetScaleLeft, 1.0);
      currentLeftWidth := IndicatorWidth(defaultBackGestureInset, currentWidthScale);
      assert currentWidthScale == ReadFloat(services.secure, BackGestureInsetScaleLeft, 1.0);

      if key == BackHeight {
        backGestureInsetScales := HeightScales;
        initScale := services.GetInt(System, settingsKey.value, 0) as real;
      }
      assert initScale == InitScale(key, services.State());

      var minDistanceIndex := if key == BarLength then Trunc(initScale) else -1;
      if key != BarLength {
        minDistanceIndex := FindClosestIndex(backGestureInsetScales, initScale);
      }
      assert minDistanceIndex == InitialProgress(key, backGestureInsetScales, services.State());
      progress := progress[key := minDistanceIndex];
    }

    /** Live change of an edge or the height. An edge sets its indicator width to the inset
        times the scale and remembers it; the height sets the height scale, removes and re-adds
        the view, then shows the remembered right and left widths again. No setting is
        written. An index outside the scales raises before anything happens. */
    method OnScaleSeekBarChange(key: SeekBarKey, v: int) returns (outcome: Outcome)
      requires IsScaleKey(key)
      modifies this`indicator, this`currentLeftWidth, this`currentRightWidth
      ensures outcome == if 0 <= v < |backGestureInsetScales| then Done else IndexOutOfBounds
      ensures outcome == IndexOutOfBounds ==>
        indicator == old(indicator) && currentLeftWidth == old(currentLeftWidth) && currentRightWidth == old(currentRightWidth)
      ensures outcome == Done && key != BackHeight ==>
        var w := IndicatorWidth(defaultBackGestureInset, backGestureInsetScales[v]);
        && indicator == old(indicator) + [WidthSet(w, key == LeftEdge)]
        && currentLeftWidth == (if key == LeftEdge then w else old(currentLeftWidth))
        && currentRightWidth == (if key == RightEdge then w else old(currentRightWidth))
      ensures outcome == Done && key == BackHeight ==>
        && currentLeftWidth == old(currentLeftWidth) && currentRightWidth == old(currentRightWidth)
        && indicator == old(indicator) + [HeightScaleSet(Trunc(backGestureInsetScales[v])), Removed, Added,
                                          WidthSet(currentRightWidth, false), WidthSet(currentLeftWidth, true)]
    {
      if !(0 <= v < |backGestureInsetScales|) {
        return IndexOutOfBounds;
      }
      outcome := Done;
      if key != BackHeight {
        var width := IndicatorWidth(defaultBackGestureInset, backGestureInsetScales[v]);
        indicator := indicator + [WidthSet(width, key == LeftEdge)];
        if key == LeftEdge {
          currentLeftWidth := width;
        } else {
          currentRightWidth := width;
        }
      } else {
        var heightScale := Trunc(backGestureInsetScales[v]);
        indicator := indicator + [HeightScaleSet(heightScale), Removed, Added,
                                  WidthSet(currentRightWidth, false), WidthSet(currentLeftWidth, true)];
      }
    }

    /** Commit of an edge or the height: the height clears both indicator edges and stores
        the truncated level as an int; an edge clears its own indicator edge and stores the
        scale as a float. */
    method OnScaleSeekBarChangeStop(key: SeekBarKey, v: int) returns (outcome: Outcome)
      requires IsScaleKey(key)
      modifies this`indicator, services
      ensures outcome == if 0 <= v < |backGestureInsetScales| then Done else IndexOutOfBounds
      ensures outcome == IndexOutOfBounds ==> indicator == old(indicator) && services.State() == old(services.State())
      ensures outcome == Done ==> services.State() == CommitWrite(old(services.State()), key, backGestureInsetScales[v])
      ensures outcome == Done && key == BackHeight ==>
        indicator == old(indicator) + [WidthSet(0, false), WidthSet(0, true)]
      ensures outcome == Done && key != BackHeight ==>
        indicator == old(indicator) + [WidthSet(0, key == LeftEdge)]
    {
      if !(0 <= v < |backGestureInsetScales|) {
        return IndexOutOfBounds;
      }
      outcome := Done;
      var scale := backGestureInsetScales[v];
      var settingsKey := SettingFor(key).value;
      if key == BackHeight {
        indicator := indicator + [WidthSet(0, false), WidthSet(0, true)];
        services.PutInt(System, settingsKey, Trunc(scale));
      } else {
        indicator := indicator + [WidthSet(0, key == LeftEdge)];
        services.PutFloat(Secure, settingsKey, scale);
      }
    }

    /** The bar-length selector's listener. */
    method OnBarLengthChange(v: int, firstCallFails: bool, secondCallFails: bool) returns (outcome: Outcome)
      modifies services
      ensures Effect(services.State(), outcome) == BarLengthSelected(old(services.State()), v, firstCallFails, secondCallFails)
    {
      var ok := true;
      if v == 0 {
        ok := services.SetEnabled(GesturalLong, false, firstCallFails);
        if ok {
          ok := services.SetEnabled(GesturalMedium, false, secondCallFails);
        }
      } else if v == 1 {
        ok := services.SetEnabledExclusiveInCategory(GesturalMedium, firstCallFails);
      } else if v == 2 {
        ok := services.SetEnabledExclusiveInCategory(GesturalLong, firstCallFails);
      }
      if !ok {
        return RemoteError;
      }
      services.PutFloat(Secure, GestureNavbarLength, v as real);
      outcome := Done;
    }

    /** The dead-zone seekbar starts at the stored int, 0 when none is stored. */
    method InitDeadzoneSeekBarPreference()
      modifies this`progress
      ensures progress == old(progress)[DeadZone := ReadInt(services.system, EdgeGestureYDeadZone, 0)]
    {
      var mode := services.GetInt(System, EdgeGestureYDeadZone, 0);
      progress := progress[DeadZone := mode];
    }

    /** Live change of the dead zone: accepted, with no effect. */
    method OnDeadZoneChange(v: int) returns (accepted: bool)
      ensures accepted
    {
      accepted := true;
    }

    /** Commit of the dead zone: the position is stored as an int in the System table. */
    method OnDeadZoneChangeStop(v: int)
      modifies services
      ensures services.State() == old(services.State()).(system := old(services.system)[EdgeGestureYDeadZone := IntText(v)])
    {
      services.PutInt(System, EdgeGestureYDeadZone, v);
    }

    /** The full-screen switch's listener; it always accepts the change. */
    method OnFullscreenGestureChange(isChecked: bool, overlayCallFails: bool) returns (accepted: bool)
      modifies services
      ensures accepted
      ensures services.State() == FullscreenToggled(old(services.State()), isChecked, overlayCallFails)
    {
      services.PutInt(System, FullscreenGestures, if isChecked then 1 else 0);
      var ok := services.SetEnabledExclusiveInCategory(
        if isChecked then NavBarModeGesturalHidden else NavBarModeGestural, overlayCallFails);
      // A failure is only logged.
      accepted := true;
    }
  }

  /** Opens the screen and commits position 1 on the left edge. */
  method CommitLeftEdgeAfterCreate(services: SystemServices, defaultInset: real, insetScales: seq<real>) returns (outcome: Outcome)
    modifies services
    ensures outcome == Done
    ensures services.State() == CommitWrite(old(services.State()), LeftEdge, HeightScales[1])
  {
    var screen := new GestureNavigationSettingsFragment(services);
    screen.OnCreatePreferences(defaultInset, insetScales);
    outcome := screen.OnScaleSeekBarChangeStop(LeftEdge, 1);
  }

  /** Opens the screen and reads the left edge's start position. */
  method LeftEdgeProgressOnCreate(services: SystemServices, defaultInset: real, insetScales: seq<real>) returns (p: int)
    ensures p == InitialProgress(LeftEdge, insetScales, services.State())
  {
    var screen := new GestureNavigationSettingsFragment(services);
    screen.OnCreatePreferences(defaultInset, insetScales);
    p := screen.progress[LeftEdge];
  }

  /** The screen as written: after the screen is created the shared scales field holds the
      height levels. With inset scales starting 0.6, 0.75, 1.0 (for instance
      [0.6, 0.75, 1.0, 1.33, 1.66]) and 0.6 stored for the left edge, the screen opens with
      the left edge at position 0. Committing position 1 then stores the height level 1.0
      rather than the inset scale 0.75 at that position, and the reopened screen starts the
      left edge at position 2. */
  method EdgeCommitAfterCreate(insetScales: seq<real>) returns (initialProgress: int, stored: real, reopenedProgress: int)
    requires |insetScales| >= 3 && insetScales[0] == 0.6 && insetScales[1] == 0.75 && insetScales[2] == 1.0
    ensures initialProgress == 0
    ensures stored == 1.0 && stored != insetScales[1]
    ensures reopenedProgress == 2
  {
    var services := new SystemServices(map[BackGestureInsetScaleLeft := FloatText(0.6)], map[], map[]);
    initialProgress := LeftEdgeProgressOnCreate(services, 48.0, insetScales);
    assert InitScale(LeftEdge, services.State()) == insetScales[0];
    ClosestIndexOfEntry(insetScales, 0);
    var outcome := CommitLeftEdgeAfterCreate(services, 48.0, insetScales);
    stored := services.GetFloat(Secure, BackGestureInsetScaleLeft, 1.0);
    reopenedProgress := LeftEdgeProgressOnCreate(services, 48.0, insetScales);
    assert InitScale(LeftEdge, services.State()) == insetScales[2];
    ClosestIndexOfEntry(insetScales, 2);
  }
}

=== FILE: java_numerics.dfy ===
/** The Java numeric behaviour the screens depend on, over mathematical reals
    (IEEE rounding is not modelled). */
module JavaNumerics {

  /** `Float.MAX_VALUE`, (2 - 2^-23) * 2^127, the scan's initial minimum distance. */
  const FLOAT_MAX: real := 340282346638528859811704183484516925440.0

  function Abs(x: real): (r: real)
    ensures r >= 0.0 && (r == x || r == -x)
  {
    if x < 0.0 then -x else x
  }

  /** The `(int)` cast of a float: rounds toward zero. */
  function Trunc(x: real): (r: int)
    ensures 0.0 <= x ==> 0 <= r && r as real <= x < r as real + 1.0
    ensures x < 0.0 ==> r <= 0 && r as real - 1.0 < x <= r as real
  {
    if x >= 0.0 then x.Floor else -((-x).Floor)
  }

  /** On a whole number the cast is exact. */
  lemma TruncOfInt(n: int)
    ensures Trunc(n as real) == n
  {
  }
}

=== FILE: platform.dfy ===
/** The platform services the two navigation screens talk to, reduced to the state they
    observe: the persisted settings store (the Secure and the System tables) and the overlay
    manager's per-package enabled flags. Remote calls that can raise a RemoteException take
    a `fails` parameter saying whether this particular call fails. */
module Platform {

  datatype Option<T> = None | Some(value: T)

  /** How an operation ends: normally, by rethrowing a remote failure, or by an array
      index out of bounds. */
  datatype Outcome = Done | RemoteError | IndexOutOfBounds

  /** The two provider tables of the settings store. */
  datatype Namespace = Secure | System

  /** The setting names the two screens read or write. */
  datatype SettingKey =
    | BackGestureInsetScaleLeft   // Secure, written as a float
    | BackGestureInsetScaleRight  // Secure, written as a float
    | GestureNavbarLength         // Secure, written as a float
    | BackGestureHeight           // System, written as an int
    | EdgeGestureYDeadZone        // System, written as an int
    | FullscreenGestures          // System, written as an int (0 or 1)

  /** The provider stores text: `putFloat` stores the text of a float, `putInt` that of an int. */
  datatype SettingValue = FloatText(r: real) | IntText(i: int)

  type SettingsTable = map<SettingKey, SettingValue>

  /** `getFloat(key, default)`: both kinds of text parse as a float; a missing key gives the default. */
  function ReadFloat(t: SettingsTable, key: SettingKey, default: real): real
  {
    if key !in t then default
    else match t[key]
      case FloatText(r) => r
      case IntText(i) => i as real
  }

  /** `getInt(key, default)`: the text of a float ("1.0") does not parse as an int, so it
      gives the default, like a missing key. */
  function ReadInt(t: SettingsTable, key: SettingKey, default: int): int
  {
    if key !in t then default
    else match t[key]
      case FloatText(_) => default
      case IntText(i) => i
  }

  /** The overlay packages the screens name. */
  datatype OverlayPackage =
    | NavBarModeGestural        // NAV_BAR_MODE_GESTURAL_OVERLAY
    | NavBarModeGesturalHidden  // the full-screen ("hidden" bar) gestural variant
    | NavBarMode2Button         // NAV_BAR_MODE_2BUTTON_OVERLAY
    | NavBarMode3Button         // NAV_BAR_MODE_3BUTTON_OVERLAY
    | GesturalLegacySensitivity // the deprecated per-sensitivity gestural overlays, as one
    | GesturalLong              // long gesture bar
    | GesturalMedium            // medium gesture bar

  /** Mutual-exclusion groups. The overlay packages declare their own category; this model
      assumes the four navigation-mode packages share one and the two bar lengths another. */
  datatype Category = NavigationBarMode | NavigationBarLength

  function CategoryOf(p: OverlayPackage): Category
  {
    if p == GesturalLong || p == GesturalMedium then NavigationBarLength else NavigationBarMode
  }

  /** Per installed overlay, whether it is enabled; a package missing from the map has no
      overlay info (`getOverlayInfo` returns null). */
  type OverlayTable = map<OverlayPackage, bool>

  function OverlayInfo(o: OverlayTable, p: OverlayPackage): Option<bool>
  {
    if p in o then Some(o[p]) else None
  }

  predicate IsEnabled(o: OverlayTable, p: OverlayPackage)
  {
    p in o && o[p]
  }

  /** The invariant the overlay manager keeps per category: at most one member enabled. */
  predicate AtMostOneEnabled(o: OverlayTable, c: Category)
  {
    forall p, q :: IsEnabled(o, p) && IsEnabled(o, q) && CategoryOf(p) == c && CategoryOf(q) == c ==> p == q
  }

  /** `setEnabled(pkg, enable)`: changes only that package; an uninstalled one is left alone. */
  function WithEnabled(o: OverlayTable, pkg: OverlayPackage, enable: bool): (r: OverlayTable)
    ensures r.Keys == o.Keys
    ensures pkg in o ==> r[pkg] == enable
    ensures forall p :: p in o && p != pkg ==> r[p] == o[p]
  {
    if pkg in o then o[pkg := enable] else o
  }

  /** `setEnabledExclusiveInCategory(pkg)`, as the overlay manager specifies it: enables `pkg`
      and disables every other installed member of its category; packages of other
      categories keep their state. An uninstalled `pkg` changes nothing. */
  function ExclusivelyEnabled(o: OverlayTable, pkg: OverlayPackage): (r: OverlayTable)
    ensures r.Keys == o.Keys
    ensures pkg !in o ==> r == o
    ensures pkg in o ==> IsEnabled(r, pkg) && AtMostOneEnabled(r, CategoryOf(pkg))
    ensures forall p :: p in o && CategoryOf(p) != CategoryOf(pkg) ==> r[p] == o[p]
  {
    if pkg !in o then o
    else map p | p in o :: if p == pkg then true else if CategoryOf(p) == CategoryOf(pkg) then false else o[p]
  }

  /** Enabling the same package exclusively twice is the same as doing it once. */
  lemma ExclusivelyEnabledIdempotent(o: OverlayTable, pkg: OverlayPackage)
    ensures ExclusivelyEnabled(ExclusivelyEnabled(o, pkg), pkg) == ExclusivelyEnabled(o, pkg)
  {
  }

  /** Everything the screens can observe of the platform. */
  datatype Store = Store(secure: SettingsTable, system: SettingsTable, overlays: OverlayTable)

  /** The new state of the platform after an operation, and how the operation ended. */
  datatype Effect = Effect(store: Store, outcome: Outcome)

  /** What a remote read returns: an answer, or a RemoteException. */
  datatype Remote<T> = Answer(value: T) | RemoteException

  /** The settings provider and the overlay manager service. */
  class SystemServices {
    var secure: SettingsTable
    var system: SettingsTable
    var overlays: OverlayTable

    constructor (secure: SettingsTable, system: SettingsTable, overlays: OverlayTable)
      ensures State() == Store(secure, system, overlays)
    {
      this.secure := secure;
      this.system := system;
      this.overlays := overlays;
    }

    function State(): Store
      reads this
    {
      Store(secure, system, overlays)
    }

    function Table(ns: Namespace): SettingsTable
      reads this
    {
      if ns == Secure then secure else system
    }

    /** `Settings.<ns>.getFloat(key, default)` */
    function GetFloat(ns: Namespace, key: SettingKey, default: real): real
      reads this
    {
      ReadFloat(Table(ns), key, default)
    }

    /** `Settings.<ns>.getInt(key, default)` */
    function GetInt(ns: Namespace, key: SettingKey, default: int): int
      reads this
    {
      ReadInt(Table(ns), key, default)
    }

    /** `Settings.<ns>.putFloat(key, value)` */
    method PutFloat(ns: Namespace, key: SettingKey, value: real)
      modifies this
      ensures ns == Secure ==> secure == old(secure)[key := FloatText(value)] && system == old(system)
      ensures ns == System ==> system == old(system)[key := FloatText(value)] && secure == old(secure)
      ensures overlays == old(overlays)
    {
      if ns == Secure {
        secure := secure[key := FloatText(value)];
      } else {
        system := system[key := FloatText(value)];
      }
    }

    /** `Settings.<ns>.putInt(key, value)` */
    method PutInt(ns: Namespace, key: SettingKey, value: int)
      modifies this
      ensures ns == Secure ==> secure == old(secure)[key := IntText(value)] && system == old(system)
      ensures ns == System ==> system == old(system)[key := IntText(value)] && secure == old(secure)
      ensures overlays == old(overlays)
    {
      if ns == Secure {
        secure := secure[key := IntText(value)];
      } else {
        system := system[key := IntText(value)];
      }
    }

    /** `getOverlayInfo(pkg)`: the package's enabled flag, null when it has no info. */
    method GetOverlayInfo(pkg: OverlayPackage, fails: bool) returns (r: Remote<Option<bool>>)
      ensures fails ==> r == RemoteException
      ensures !fails ==> r.Answer? && (r.value.Some? <==> pkg in overlays)
      ensures !fails && pkg in overlays ==> r.value.value == overlays[pkg]
    {
      if fails {
        r := RemoteException;
      } else {
        r := Answer(OverlayInfo(overlays, pkg));
      }
    }

    /** `setEnabled(pkg, enable)`; `ok` is false when the call raised a RemoteException. */
    method SetEnabled(pkg: OverlayPackage, enable: bool, fails: bool) returns (ok: bool)
      modifies this
      ensures ok == !fails
      ensures overlays == if fails then old(overlays) else WithEnabled(old(overlays), pkg, enable)
      ensures secure == old(secure) && system == old(system)
    {
      ok := !fails;
      if ok {
        overlays := WithEnabled(overlays, pkg, enable);
      }
    }

    /** `setEnabledExclusiveInCategory(pkg)`; `ok` is false when the call raised a RemoteException. */
    method SetEnabledExclusiveInCategory(pkg: OverlayPackage, fails: bool) returns (ok: bool)
      modifies this
      ensures ok == !fails
      ensures overlays == if fails then old(overlays) else ExclusivelyEnabled(old(overlays), pkg)
      ensures secure == old(secure) && system == old(system)
    {
      ok := !fails;
      if ok {
        overlays := ExclusivelyEnabled(overlays, pkg);
      }
    }
  }
}

=== FILE: system_navigation.dfy ===
/** The system-navigation screen: it offers gestural, two-button and three-button navigation,
    applies a choice by enabling the matching overlay exclusively in the navigation-bar-mode
    category, and migrates the legacy per-sensitivity gestural overlays to the single
    gestural overlay plus inset-scale settings. */
module SystemNavigation {
  import opened Platform
  import opened GestureNavigation

  /** The radio-button keys; `OtherKey` stands for any string the switch does not know. */
  datatype NavModeKey = KeyGestural | Key2Buttons | Key3Buttons | OtherKey(name: string)

  predicate IsModeKey(key: NavModeKey)
  {
    !key.OtherKey?
  }

  /** The overlay a key selects. Only the gestural key reads the full-screen flag, with
      default 0, and picks the hidden-bar variant when it is 1; an unknown key keeps the
      initial value, the plain gestural overlay. Every key thus selects a
      navigation-bar-mode overlay standing for that key (an unknown key for gestural). */
  function OverlayPackageFor(key: NavModeKey, system: SettingsTable): (pkg: OverlayPackage)
    ensures CategoryOf(pkg) == NavigationBarMode
    ensures ModeOfOverlay(pkg) == Some(if key.OtherKey? then KeyGestural else key)
    ensures key == KeyGestural ==> (pkg == NavBarModeGesturalHidden <==> ReadInt(system, FullscreenGestures, 0) == 1)
    ensures pkg != GesturalLegacySensitivity
  {
    match key
    case KeyGestural =>
      if ReadInt(system, FullscreenGestures, 0) == 1 then NavBarModeGesturalHidden else NavBarModeGestural
    case Key2Buttons => NavBarMode2Button
    case Key3Buttons => NavBarMode3Button
    case OtherKey(_) => NavBarModeGestural
  }

  /** The navigation mode an enabled overlay stands for. */
  function ModeOfOverlay(p: OverlayPackage): Option<NavModeKey>
  {
    match p
    case NavBarModeGestural => Some(KeyGestural)
    case NavBarModeGesturalHidden => Some(KeyGestural)
    case NavBarMode2Button => Some(Key2Buttons)
    case NavBarMode3Button => Some(Key3Buttons)
    case GesturalLegacySensitivity => Some(KeyGestural)
    case _ => None
  }

  /** An unknown key does not depend on the full-screen flag, or on any other setting. */
  lemma OtherKeyIgnoresSettings(name: string, system1: SettingsTable, system2: SettingsTable)
    ensures OverlayPackageFor(OtherKey(name), system1) == NavBarModeGestural
    ensures OverlayPackageFor(OtherKey(name), system1) == OverlayPackageFor(OtherKey(name), system2)
  {
  }

  /** The current mode from the two navigation predicates: gestural first, then two-button,
      three-button otherwise. */
  function CurrentSystemNavigationMode(gestureNavigationEnabled: bool, twoButtonNavigationEnabled: bool): (key: NavModeKey)
    ensures IsModeKey(key)
  {
    if gestureNavigationEnabled then KeyGestural
    else if twoButtonNavigationEnabled then Key2Buttons
    else Key3Buttons
  }

  /** This model's reading of the two predicates of SystemNavigationPreferenceController,
      which is not part of this model: gesture navigation is on when a gestural overlay is
      enabled (the plain one, its hidden-bar variant or a legacy per-sensitivity one),
      two-button navigation when its overlay is. */
  predicate GestureNavigationEnabledIn(o: OverlayTable)
  {
    IsEnabled(o, NavBarModeGestural) || IsEnabled(o, NavBarModeGesturalHidden) || IsEnabled(o, GesturalLegacySensitivity)
  }

  predicate TwoButtonNavigationEnabledIn(o: OverlayTable)
  {
    IsEnabled(o, NavBarMode2Button)
  }

  /** Gestural wins over two-button, and three-button is what is left. */
  lemma CurrentModePriority(gestureNavigationEnabled: bool, twoButtonNavigationEnabled: bool)
    ensures var key := CurrentSystemNavigationMode(gestureNavigationEnabled, twoButtonNavigationEnabled);
      && (key == KeyGestural <==> gestureNavigationEnabled)
      && (key == Key2Buttons <==> !gestureNavigationEnabled && twoButtonNavigationEnabled)
      && (key == Key3Buttons <==> !gestureNavigationEnabled && !twoButtonNavigationEnabled)
  {
  }

  /** With no navigation overlay enabled the screen shows three-button navigation. */
  lemma NoNavigationOverlayMeansThreeButton(o: OverlayTable)
    requires forall p | CategoryOf(p) == NavigationBarMode :: !IsEnabled(o, p)
    ensures CurrentSystemNavigationMode(GestureNavigationEnabledIn(o), TwoButtonNavigationEnabledIn(o)) == Key3Buttons
  {
    assert !IsEnabled(o, NavBarModeGestural) && !IsEnabled(o, NavBarModeGesturalHidden);
    assert !IsEnabled(o, GesturalLegacySensitivity) && !IsEnabled(o, NavBarMode2Button);
  }

  /** Setting a mode (one exclusive-enable call; its failure is rethrown). */
  function ModeSet(s: Store, key: NavModeKey, enableFails: bool): (e: Effect)
    ensures e.outcome == (if enableFails then RemoteError else Done)
    ensures enableFails ==> e.store == s
    ensures e.store.secure == s.secure && e.store.system == s.system
    ensures e.store.overlays.Keys == s.overlays.Keys
    ensures forall p | p in s.overlays && CategoryOf(p) != NavigationBarMode :: e.store.overlays[p] == s.overlays[p]
    ensures !enableFails && OverlayPackageFor(key, s.system) in s.overlays ==>
      IsEnabled(e.store.overlays, OverlayPackageFor(key, s.system)) && AtMostOneEnabled(e.store.overlays, NavigationBarMode)
    ensures !enableFails && OverlayPackageFor(key, s.system) !in s.overlays ==> e.store == s
  {
    if enableFails then Effect(s, RemoteError)
    else Effect(s.(overlays := ExclusivelyEnabled(s.overlays, OverlayPackageFor(key, s.system))), Done)
  }

  /** Setting a mode and reading it back gives that mode, when its overlay is installed. */
  lemma {:induction false} ModeRoundTrip(s: Store, key: NavModeKey)
    requires IsModeKey(key)
    requires OverlayPackageFor(key, s.system) in s.overlays
    ensures ModeSet(s, key, false).outcome == Done
    ensures var o := ModeSet(s, key, false).store.overlays;
      CurrentSystemNavigationMode(GestureNavigationEnabledIn(o), TwoButtonNavigationEnabledIn(o)) == key
  {
    var pkg := OverlayPackageFor(key, s.system);
    var o := ModeSet(s, key, false).store.overlays;
    assert IsEnabled(o, pkg) && AtMostOneEnabled(o, NavigationBarMode);
    if key == Key2Buttons {
      assert !IsEnabled(o, NavBarModeGestural) && !IsEnabled(o, NavBarModeGesturalHidden);
      assert !IsEnabled(o, GesturalLegacySensitivity);
    } else if key == Key3Buttons {
      assert !IsEnabled(o, NavBarModeGestural) && !IsEnabled(o, NavBarModeGesturalHidden);
      assert !IsEnabled(o, GesturalLegacySensitivity) && !IsEnabled(o, NavBarMode2Button);
    }
  }

  /** `setCurrentSystemNavigationMode`: one exclusive enable of the key's overlay; a remote
      failure is rethrown and changes nothing. */
  method SetCurrentSystemNavigationMode(services: SystemServices, key: NavModeKey, enableFails: bool) returns (outcome: Outcome)
    modifies services
    ensures Effect(services.State(), outcome) == ModeSet(old(services.State()), key, enableFails)
  {
    var overlayPackage := OverlayPackageFor(key, services.system);
    var ok := services.SetEnabledExclusiveInCategory(overlayPackage, enableFails);
    outcome := if ok then Done else RemoteError;
  }

  /** `setDefaultKey`, the radio-button callback: sets the mode and reports it handled
      (`Done`) unless the rethrown failure escapes. */
  method SetDefaultKey(services: SystemServices, key: NavModeKey, enableFails: bool) returns (outcome: Outcome)
    modifies services
    ensures Effect(services.State(), outcome) == ModeSet(old(services.State()), key, enableFails)
  {
    outcome := SetCurrentSystemNavigationMode(services, key, enableFails);
  }

  /** Which of the migration's three remote calls fail. */
  datatype MigrationFaults = MigrationFaults(gesturalInfoReadFails: bool, fullscreenInfoReadFails: bool, enableFails: bool)

  /** The legacy state the migration looks for: the gestural overlay installed but
      disabled, and the hidden-bar variant unknown or disabled. */
  predicate NeedsMigration(info: Option<bool>, fullscreenInfo: Option<bool>)
  {
    info.Some? && !info.value && (fullscreenInfo.None? || !fullscreenInfo.value)
  }

  /** What the migration does once it has decided to act: set gestural mode, then store 1.0
      as both inset scales. A failure of the mode change is rethrown before anything is
      stored. */
  function MigrationAction(s: Store, enableFails: bool): (e: Effect)
    ensures enableFails ==> e == Effect(s, RemoteError)
    ensures !enableFails ==>
      && e.outcome == Done
      && e.store.overlays == ExclusivelyEnabled(s.overlays, OverlayPackageFor(KeyGestural, s.system))
      && e.store.system == s.system
      && ReadFloat(e.store.secure, BackGestureInsetScaleLeft, 0.0) == 1.0
      && ReadFloat(e.store.secure, BackGestureInsetScaleRight, 0.0) == 1.0
      && forall k | k != BackGestureInsetScaleLeft && k != BackGestureInsetScaleRight ::
           (k in e.store.secure <==> k in s.secure) && (k in s.secure ==> e.store.secure[k] == s.secure[k])
  {
    var e := ModeSet(s, KeyGestural, enableFails);
    if e.outcome != Done then e
    else
      Effect(e.store.(secure := e.store.secure[BackGestureInsetScaleLeft := FloatText(1.0)]
                                              [BackGestureInsetScaleRight := FloatText(1.0)]), Done)
  }

  /** `migrateOverlaySensitivityToSettings`: only in gestural mode, read the two overlay infos
      (a failure of either read is swallowed, and the second is not attempted after the
      first failed); on the legacy state, act. Whatever happens, the System table is left
      alone, and a failing run changes nothing. */
  function Migrated(s: Store, gestureNavigationEnabled: bool, f: MigrationFaults): (e: Effect)
    ensures e.store.system == s.system
    ensures e.outcome == Done || e == Effect(s, RemoteError)
    ensures e.outcome == RemoteError ==> f.enableFails
  {
    if !gestureNavigationEnabled then Effect(s, Done)
    else
      var info := if f.gesturalInfoReadFails then None else OverlayInfo(s.overlays, NavBarModeGestural);
      var fullscreenInfo :=
        if f.gesturalInfoReadFails || f.fullscreenInfoReadFails then None
        else OverlayInfo(s.overlays, NavBarModeGesturalHidden);
      if !NeedsMigration(info, fullscreenInfo) then Effect(s, Done)
      else MigrationAction(s, f.enableFails)
  }

  method MigrateOverlaySensitivityToSettings(services: SystemServices, gestureNavigationEnabled: bool, faults: MigrationFaults)
    returns (outcome: Outcome)
    modifies services
    ensures Effect(services.State(), outcome) == Migrated(old(services.State()), gestureNavigationEnabled, faults)
  {
    if !gestureNavigationEnabled {
      return Done;
    }
    var info: Option<bool> := None;
    var fullscreenOverlayInfo: Option<bool> := None;
    var reply := services.GetOverlayInfo(NavBarModeGestural, faults.gesturalInfoReadFails);
    if reply.Answer? {
      info := reply.value;
      reply := services.GetOverlayInfo(NavBarModeGesturalHidden, faults.fullscreenInfoReadFails);
      if reply.Answer? {
        fullscreenOverlayInfo := reply.value;
      }
    }
    if info.Some? && !info.value && (fullscreenOverlayInfo.None? || !fullscreenOverlayInfo.value) {
      outcome := SetCurrentSystemNavigationMode(services, KeyGestural, faults.enableFails);
      if outcome != Done {
        return;
      }
      services.PutFloat(Secure, BackGestureInsetScaleLeft, 1.0);
      services.PutFloat(Secure, BackGestureInsetScaleRight, 1.0);
    }
    outcome := Done;
  }

  /** Outside gestural mode, or when the first read fails, the migration does nothing and
      reports no error. */
  lemma MigrationGuards(s: Store, gestureNavigationEnabled: bool, f: MigrationFaults)
    ensures !gestureNavigationEnabled ==> Migrated(s, gestureNavigationEnabled, f) == Effect(s, Done)
    ensures f.gesturalInfoReadFails ==> Migrated(s, gestureNavigationEnabled, f) == Effect(s, Done)
  {
  }

  /** A migration that acts leaves gestural navigation on and both inset scales at 1.0. */
  lemma MigrationEstablishesGesturalMode(s: Store, f: MigrationFaults)
    requires !f.gesturalInfoReadFails && !f.fullscreenInfoReadFails && !f.enableFails
    requires NeedsMigration(OverlayInfo(s.overlays, NavBarModeGestural), OverlayInfo(s.overlays, NavBarModeGesturalHidden))
    requires OverlayPackageFor(KeyGestural, s.system) in s.overlays
    ensures var t := Migrated(s, true, f).store;
      && CurrentSystemNavigationMode(GestureNavigationEnabledIn(t.overlays), TwoButtonNavigationEnabledIn(t.overlays)) == KeyGestural
      && ReadFloat(t.secure, BackGestureInsetScaleLeft, 0.0) == 1.0
      && ReadFloat(t.secure, BackGestureInsetScaleRight, 0.0) == 1.0
      && t.system == s.system
  {
    ModeRoundTrip(s, KeyGestural);
  }

  /** Run once without remote failures, the migration is finished: a second run whose reads
      succeed changes nothing, whatever the first run found. (The second run may only
      consider gestural mode on if the first did, since a run that changes nothing leaves
      the navigation predicates as they were.) */
  lemma {:induction false} MigrationIdempotent(s: Store, first: bool, second: bool, f: MigrationFaults)
    requires second ==> first
    requires !f.gesturalInfoReadFails && !f.fullscreenInfoReadFails
    ensures var once := Migrated(s, first, MigrationFaults(false, false, false)).store;
      Migrated(once, second, f).store == once
  {
    var none := MigrationFaults(false, false, false);
    var once := Migrated(s, first, none).store;
    if first && second && once != s {
      var pkg := OverlayPackageFor(KeyGestural, s.system);
      assert once.system == s.system;
      assert once.overlays == ExclusivelyEnabled(s.overlays, pkg);
      assert NavBarModeGestural in s.overlays;
      if pkg in s.overlays {
        assert IsEnabled(once.overlays, pkg);
      } else {
        assert once.overlays == s.overlays;
        ExclusivelyEnabledIdempotent(s.overlays, pkg);
        assert once.secure[BackGestureInsetScaleLeft := FloatText(1.0)][BackGestureInsetScaleRight := FloatText(1.0)] == once.secure;
      }
    }
  }

  /** With both reads succeeding, the migration acts exactly on the legacy state. */
  lemma MigrationActsExactlyWhenNeeded(s: Store, f: MigrationFaults)
    requires !f.gesturalInfoReadFails && !f.fullscreenInfoReadFails
    ensures Migrated(s, true, f) ==
      if NeedsMigration(OverlayInfo(s.overlays, NavBarModeGestural), OverlayInfo(s.overlays, NavBarModeGesturalHidden))
      then MigrationAction(s, f.enableFails) else Effect(s, Done)
  {
  }

  /** A failing second read after a successful first one makes the migration treat the
      hidden-bar overlay as absent: it acts exactly when the gestural overlay is installed
      and disabled, whatever the hidden-bar overlay's state. */
  lemma SecondReadFailureTreatsFullscreenAsAbsent(s: Store, f: MigrationFaults)
    requires !f.gesturalInfoReadFails && f.fullscreenInfoReadFails
    ensures Migrated(s, true, f) ==
      if OverlayInfo(s.overlays, NavBarModeGestural) == Some(false) then MigrationAction(s, f.enableFails) else Effect(s, Done)
  {
  }

  /** With the hidden-bar overlay enabled and the gestural one disabled, a run whose reads
      succeed does nothing, but a run whose second read fails switches to the plain
      gestural overlay and resets both inset scales. */
  lemma SecondReadFailureExample(s: Store)
    requires s.overlays == map[NavBarModeGestural := false, NavBarModeGesturalHidden := true]
    requires s.system == map[]
    ensures Migrated(s, true, MigrationFaults(false, false, false)) == Effect(s, Done)
    ensures var t := Migrated(s, true, MigrationFaults(false, true, false)).store;
      && t.overlays == map[NavBarModeGestural := true, NavBarModeGesturalHidden := false]
      && ReadFloat(t.secure, BackGestureInsetScaleLeft, 0.0) == 1.0
  {
    var t := Migrated(s, true, MigrationFaults(false, true, false)).store;
    assert t.overlays == ExclusivelyEnabled(s.overlays, NavBarModeGestural);
  }

  /** A device still on a legacy per-sensitivity gestural overlay is in gestural mode and in
      the legacy state; a migration without failures retires that overlay in favour of the
      one the gestural key picks, stays in gestural mode, keeps the category invariant and
      resets both inset scales. */
  lemma {:induction false} MigrationRetiresLegacyOverlay(s: Store, f: MigrationFaults)
    requires !f.gesturalInfoReadFails && !f.fullscreenInfoReadFails && !f.enableFails
    requires AtMostOneEnabled(s.overlays, NavigationBarMode)
    requires IsEnabled(s.overlays, GesturalLegacySensitivity)
    requires NavBarModeGestural in s.overlays
    requires OverlayPackageFor(KeyGestural, s.system) in s.overlays
    ensures var e := Migrated(s, GestureNavigationEnabledIn(s.overlays), f);
      && e.outcome == Done
      && !IsEnabled(e.store.overlays, GesturalLegacySensitivity)
      && IsEnabled(e.store.overlays, OverlayPackageFor(KeyGestural, s.system))
      && AtMostOneEnabled(e.store.overlays, NavigationBarMode)
      && GestureNavigationEnabledIn(e.store.overlays)
      && ReadFloat(e.store.secure, BackGestureInsetScaleLeft, 0.0) == 1.0
      && ReadFloat(e.store.secure, BackGestureInsetScaleRight, 0.0) == 1.0
  {
    assert GestureNavigationEnabledIn(s.overlays);
    assert !IsEnabled(s.overlays, NavBarModeGestural) && !IsEnabled(s.overlays, NavBarModeGesturalHidden);
    assert NeedsMigration(OverlayInfo(s.overlays, NavBarModeGestural), OverlayInfo(s.overlays, NavBarModeGesturalHidden));
    var pkg := OverlayPackageFor(KeyGestural, s.system);
    var o := Migrated(s, true, f).store.overlays;
    assert o == ExclusivelyEnabled(s.overlays, pkg);
    assert IsEnabled(o, pkg);
  }

  /** After the full-screen switch succeeds, choosing gestural mode changes nothing: the
      switch leaves enabled the overlay the gestural key would pick, or, when that overlay
      is not installed, neither call touches the overlays. */
  lemma {:induction false} FullscreenToggleAgreesWithGesturalMode(s: Store, isChecked: bool)
    ensures var t := FullscreenToggled(s, isChecked, false);
      && OverlayPackageFor(KeyGestural, t.system) == (if isChecked then NavBarModeGesturalHidden else NavBarModeGestural)
      && ModeSet(t, KeyGestural, false) == Effect(t, Done)
  {
    var t := FullscreenToggled(s, isChecked, false);
    var pkg := if isChecked then NavBarModeGesturalHidden else NavBarModeGestural;
    assert ReadInt(t.system, FullscreenGestures, 0) == (if isChecked then 1 else 0);
    ExclusivelyEnabledIdempotent(s.overlays, pkg);
  }

  /** The rank of a mode in the candidate list. */
  function CandidateRank(key: NavModeKey): nat
  {
    match key
    case KeyGestural => 0
    case Key2Buttons => 1
    case Key3Buttons => 2
    case OtherKey(_) => 3
  }

  /** The overlay whose availability decides whether a mode is offered. */
  function CandidateOverlay(key: NavModeKey): OverlayPackage
    requires IsModeKey(key)
  {
    match key
    case KeyGestural => NavBarModeGestural
    case Key2Buttons => NavBarMode2Button
    case Key3Buttons => NavBarMode3Button
  }

  /** `getCandidates`: gestural, two-button, three-button, in that order, each only when its
      overlay package is available. */
  method GetCandidates(available: set<OverlayPackage>) returns (candidates: seq<NavModeKey>)
    ensures forall key | key in candidates :: IsModeKey(key)
    ensures forall key | IsModeKey(key) :: key in candidates <==> CandidateOverlay(key) in available
    ensures forall i, j | 0 <= i < j < |candidates| :: CandidateRank(candidates[i]) < CandidateRank(candidates[j])
  {
    candidates := [];
    if NavBarModeGestural in available {
      candidates := candidates + [KeyGestural];
    }
    if NavBarMode2Button in available {
      candidates := candidates + [Key2Buttons];
    }
    if NavBarMode3Button in available {
      candidates := candidates + [Key3Buttons];
    }
  }
}
